=== FILE: README.md ===
# File transfer protocol: a Dafny model

This project models the transfer protocol of a small client/server file
transfer system. A desktop client sends one file over TCP, and a server
writes it to disk. The model covers three parts:

- **Header codec.** The client announces a file as `<basename>|<size>`. The
  server splits the header on `|`, demands exactly two pieces, parses the
  size with `int()`, and saves under `RECEIVED_` plus the basename of the
  announced name (module `Header`, built on the string operations in
  `Text`).
- **Receive loop.** The server appends chunks read from the connection to
  the new file until the announced size is reached or the peer closes. It
  then computes the total time and the average speed with a positive
  time floor (module `Receiver`).
- **Send loop.** The client reads the file in chunks of at most
  `BUFFER_SIZE = 4096` bytes and sends each one. After each chunk it
  records a throughput sample, but only when the clock advanced since the
  last sample. At the end it reports the average speed (modules `Sender`
  and `Throughput`).

`Protocol` puts the two sides together. A connection is the sequence of
chunks its reads return, and a read past the end returns the empty chunk,
which is how a closed peer shows (`Bytes`). The client's clock is a
function from the index of a `time.time()` call to its reading. Speeds are
exact reals in MB/s, with 1 MB = 1048576 bytes. Each speed is stated by the
product that defines it: `rate * seconds * 1048576 == bytes`.

Three behaviours of the code are easy to miss, and the model keeps them:

- **Negative sizes are accepted.** The server parses the size with
  `int()`, which accepts a leading `-`. A header announcing a negative size
  is therefore accepted, no byte is read, and an empty file is written
  (`Receiver.NegativeSizeAccepted` for the decoding; `Receiver.ReceivePayload` reads nothing for a size `<= 0`).
- **Reads are not capped.** The receive loop does not cap a read to the
  bytes still missing, so the file can exceed the announced size by up to
  `BUFFER_SIZE - 1` bytes (`Receiver.ReceivePayload`).
- **The header is split on every `|`.** `split('|')` splits on every `|`,
  and the server needs exactly two pieces, so a name holding `|` is always
  refused (`Header.NameWithSeparatorRejected`).

## Model

| member | source | states |
|---|---|---|
| Bytes.FlattenGrows | server.py:30-35 | with non-empty chunks, consuming more chunks strictly lengthens the received bytes |
| Text.Split | server.py:16 | `str.split` on the separator `SEP` gives one piece more than there are separators, no piece holds the separator, and joining the pieces restores the header |
| Text.SplitJoin | server.py:16 | splitting the join of separator-free pieces gives back exactly those pieces |
| Text.CountPositive | server.py:16 | a character occurs in a string exactly when its count is positive |
| Text.Basename | server.py:23 | `os.path.basename` is the longest suffix with no `/`: it holds no `/`, ends the path, and is preceded by `/` when shorter than the path |
| Text.BasenameIdempotent | server.py:23 | the basename of a basename is itself |
| Text.Decimal | client_gui.py:110 | `str(size)` is a non-empty digit string that denotes `size` and has no leading zero unless `size` is 0 |
| Text.ParseInt | server.py:17 | `int()` succeeds exactly on an optional sign followed by digits; the value is the digits' value, negated after `-` |
| Text.ParseDecimal | server.py:17 | `int(str(n)) == n` for every `n >= 0` |
| Text.ParseNegative | server.py:17 | `int()` accepts `-` followed by digits and yields the negated value |
| Text.LiteralHasNoSeparator | server.py:16-17 | an accepted integer literal contains no separator |
| Header.EncodeShape | client_gui.py:110 | the client's header is the name, one separator, then a literal that parses back to the size; it holds one separator more than the name |
| Header.Decode | server.py:15-20 | a header with a separator count other than one is refused with the piece count found; an accepted header is a separator-free name, one separator, and a literal that parses to the size |
| Header.DecodeOneSeparator | server.py:16-20 | with exactly one separator, the header is accepted exactly when the size text is an integer literal, and then yields that name and value |
| Header.DecodeAcceptsIff | server.py:15-20 | a header is accepted if and only if some position splits it into a separator-free name, the separator, and a separator-free integer literal |
| Header.NameWithSeparatorRejected | server.py:16 | a name containing the separator is always refused, with three or more pieces reported |
| Header.RoundTrip | server.py:16-17 | for a name without the separator and any size `>= 0`, decoding the client's header gives back that name and size |
| Header.SaveName | server.py:23-24 | the save name is `RECEIVED_` followed by the longest `/`-free suffix of the announced name, so it never contains `/` |
| Header.SaveNameOfBasename | server.py:23-24 | a name already stripped to its basename is saved as `RECEIVED_` plus that very name |
| Throughput.TotalTime | server.py:38 | the server's total time is always positive: the measured span when the clock advanced, else 0.000001 |
| Throughput.Rate | client_gui.py:135 | a rate over a positive time is non-negative for a non-negative byte count, and zero for zero bytes |
| Throughput.RateScales | client_gui.py:134-135 | a rate times its time span, times 1048576, gives back the byte count |
| Throughput.AverageSpeed | client_gui.py:153 | the average speed is 0 whenever the elapsed time is not positive, and never negative |
| Throughput.AverageSpeedScales | client_gui.py:153 | over a positive time, the average speed times the time, times 1048576, is the bytes sent |
| Throughput.Begin | client_gui.py:95-118 | the bookkeeping starts with no samples, both speed displays 0, the last time at the start time, no bytes accounted, and the invariant holding |
| Throughput.Observe | client_gui.py:128-150 | a sample is recorded exactly when the interval is positive: its time is the elapsed time, appended to both lists together, the current speed is the new sample's speed and the average is over the elapsed time; only then do last time and last bytes advance; otherwise nothing changes |
| Throughput.ObservePreservesInv | client_gui.py:128-150 | each chunk keeps the invariant: equal list lengths, positive and strictly increasing times, and per-sample byte deltas summing to the last bytes |
| Throughput.SamplePreservesInv | client_gui.py:133-150 | a recorded sample keeps the invariant |
| Throughput.SampleArea | client_gui.py:134-137 | the new sample's speed times its interval carries exactly the bytes since the last sample |
| Throughput.SampledElapsedPositive | client_gui.py:142 | when a sample is recorded the elapsed time is positive, so the running average accounts for all bytes sent |
| Receiver.StopsAtUnique | server.py:30-33 | the receive loop's stopping point is determined by the connection and the announced size |
| Receiver.ReceivePayload | server.py:26-35 | the loop stops at the first size-reached or empty read; the file is the concatenation of the chunks consumed; the counter is its length; nothing is read for a size `<= 0`; the overshoot is below BUFFER_SIZE |
| Receiver.EarlyClose | server.py:30-33 | if the peer closes after K bytes with K below the size, the loop consumes exactly those chunks, so the file has exactly K bytes and no error occurs |
| Receiver.CompleteDelivery | server.py:29-35 | when the first non-empty chunks carry exactly the announced bytes, the file equals those bytes, however they were cut into chunks |
| Receiver.NegativeSizeAccepted | server.py:17 | a header announcing a negative size is accepted with that negative size |
| Receiver.ServerStats | server.py:37-39 | the final statistics have a positive total time, equal to the measured span when the clock advanced, and an average speed that accounts for every byte received |
| Receiver.ReceiveFile | server.py:11-44 | a refused header drops the connection before any file is opened; otherwise the file `RECEIVED_<basename>` holds exactly the bytes the loop consumed |
| Sender.FileChunksShape | client_gui.py:120-124 | the file's reads are non-empty, at most 4096 bytes each, full except the last, and concatenate to the file |
| Sender.SentAfter | client_gui.py:126 | the byte counter never exceeds the file size |
| Sender.Replay | client_gui.py:115-150 | the bookkeeping for a prefix of the chunks starts at call 0 of the clock and records at most one sample per chunk |
| Sender.ReplayKeepsInv | client_gui.py:128-150 | the bookkeeping after any number of chunks satisfies the sampler invariant for the bytes sent so far |
| Sender.SendLoop | client_gui.py:120-126 | the loop keeps the sent chunks a prefix of the file's reads, and stops at the empty read or at the chunk the link fails on |
| Sender.SendPayload | client_gui.py:115-150 | the chunks sent are a prefix of the file's reads, ending at the failing chunk or at the end; the counter is their total length, and the file length after a full send; the samples are the bookkeeping of exactly those chunks |
| Sender.Transfer | client_gui.py:104-161 | the header is the basename and the size; the payload is the file up to any failure; the samples come from this transfer alone; completion resets the current speed and reports the average over the total time |
| Sender.StartTransfer | client_gui.py:85-161 | a path that is not a file leaves the client state, samples included, unchanged; a refused connection leaves empty samples and an error; otherwise the outcome is as Transfer describes |
| Protocol.HeaderDecoded | server.py:16-20 | the server reads back the client's header exactly, or refuses it with the part count when the name holds the separator |
| Protocol.HeaderAgreement | server.py:15-24 | the server accepts the client's header exactly when the basename holds no separator, then decodes the basename and size and saves as `RECEIVED_` plus the basename |
| Protocol.ReadsDelivered | server.py:29-35 | however TCP cuts the bytes the client sent into non-empty reads, and even when the connection loses the tail, the server consumes every read and saves exactly those bytes, a prefix of the file; a whole file means every chunk was sent, and when every sent byte arrived the file is whole exactly when every chunk was sent |
| Protocol.Session | server.py:15-35 | in one session the server drops the connection exactly when the basename holds the separator; otherwise it saves what it read, a prefix of the file; a whole saved file implies the client reported completion, and the converse holds when every byte `sendall` accepted arrived |

## Left out

- Sockets, `connect`, `bind`, `listen` and the server's `accept` loop are left out. They are blocking network I/O. A connection is the sequence of chunks its reads return, and a client-side failure is a `Link` value: refused, failing at one payload chunk, or reliable. A failed header send is folded into `Refused`, so `Protocol.Session` then reports no server session; the server's handling of an empty or partial header falls under the header framing, which is left out. A chunk that fails part-way is taken as not sent.
- The header framing is left out: the single `recv(1024)` header read, the `time.sleep(0.1)` separation, and UTF-8 encoding and decoding. The server's header is a given string. A header that is not valid UTF-8 raises `UnicodeDecodeError` in the `.decode()` call at server.py:13, which runs before the `try` at server.py:15, so nothing in `receive_file` or `start_server` catches it and it ends the accept loop; this is not modelled.
- The full `int()` grammar is left out: surrounding whitespace, underscores and non-ASCII digits. `Text.ParseInt` accepts an optional sign followed by ASCII digits.
- `os.path.basename` is modelled for POSIX paths only. `/` is the only separator.
- Floating-point speeds and `:.2f` formatting are left out. Speeds are exact real quotients, and `Throughput.Rate` leaves the defining product to `Throughput.RateScales`.
- Tkinter widgets, `StringVar` updates, message boxes, the elapsed-time and progress labels, `threading.Thread` and the matplotlib graph are presentation and concurrency. The client state keeps only the status, the two speed values and the sample lists.
- `os.path.isfile`, `os.path.getsize` and file handles are foreign calls. The file is given as its contents, and the file is assumed not to change between `getsize` and the reads.
- The server's `print` calls are left out. The statistics they show are returned in `Receiver.FinalStats`.
- Protocol.Session: the server's reads are any non-empty cut of a prefix of the bytes whose `sendall` returned. Bytes of a `sendall` that raised part-way are taken never to arrive. Nothing acknowledges delivery, so a connection lost after the last `sendall` still shows "Transfer Complete" while `RECEIVED_<basename>` is short; the contract therefore promises completion from a whole file, and a whole file from completion only when every accepted byte arrived.
- Receiver.ReceiveFile: the server's `open(save_name, 'wb')`, its `conn.recv` and `f.write` calls, and the flush when the `with` block closes the file are assumed to succeed. In the program all of them sit outside the `try`, and `start_server` catches nothing. So an `OSError` from `open` ends the accept loop, for instance on a save name longer than the file system allows (a 247-byte basename plus `RECEIVED_`). So does a `ValueError` on a name holding a NUL character, a `ConnectionResetError` from `recv`, or an `OSError` from `f.write` or the closing flush (disk full, file too large). The model gives `Saved` with all the consumed bytes instead.
- Sender.StartTransfer: the client's `open(file_path, "rb")` and `f.read` calls are assumed to succeed once `os.path.isfile` holds. A read failure at chunk k shows in the model as `BreaksAt(k)`, the same client state and wire. An unreadable empty file is not covered: the program sends the header `<basename>|0` and ends in `Error`, while for an empty file every `Link` value that lets the header out leads the model to `Complete`, and `Refused` sends no header.

=== FILE: bytes.dfy ===
/** Bytes, chunks and the concatenation of a stream of chunks. */
module Bytes {

  newtype byte = x: int | 0 <= x < 256

  /** One unit of data moved by a single read or write call. */
  type Chunk = seq<byte>

  /** Upper bound on the size of one read, on both sides of the connection. */
  const BUFFER_SIZE: nat := 4096

  /** The bytes of a sequence of chunks, in order. */
  function Flatten(chunks: seq<Chunk>): seq<byte>
    decreases |chunks|
  {
    if |chunks| == 0 then [] else Flatten(chunks[..|chunks| - 1]) + chunks[|chunks| - 1]
  }

  /** Every chunk respects the read size. */
  predicate ChunksBounded(chunks: seq<Chunk>)
  {
    forall i :: 0 <= i < |chunks| ==> |chunks[i]| <= BUFFER_SIZE
  }

  /** Flattening distributes over concatenation of chunk sequences. */
  lemma {:induction false} FlattenConcat(a: seq<Chunk>, b: seq<Chunk>)
    ensures Flatten(a + b) == Flatten(a) + Flatten(b)
    decreases |b|
  {
    if |b| == 0 {
      assert a + b == a;
    } else {
      var b' := b[..|b| - 1];
      assert (a + b)[..|a + b| - 1] == a + b';
      FlattenConcat(a, b');
    }
  }

  /** Appending one chunk appends its bytes. */
  lemma FlattenSnoc(a: seq<Chunk>, c: Chunk)
    ensures Flatten(a + [c]) == Flatten(a) + c
  {
    assert (a + [c])[..|a|] == a;
  }

  /** A chunk prepended to a stream contributes its bytes first. */
  lemma FlattenCons(c: Chunk, a: seq<Chunk>)
    ensures Flatten([c] + a) == c + Flatten(a)
  {
    FlattenConcat([c], a);
    assert [c][..0] == [];
  }

  /** The bytes of a prefix of a stream are a prefix of the stream's bytes. */
  lemma FlattenPrefix(chunks: seq<Chunk>, i: nat, j: nat)
    requires i <= j <= |chunks|
    ensures Flatten(chunks[..j]) == Flatten(chunks[..i]) + Flatten(chunks[i..j])
  {
    assert chunks[..j] == chunks[..i] + chunks[i..j];
    FlattenConcat(chunks[..i], chunks[i..j]);
  }

  /** While every chunk is non-empty, each further chunk strictly adds bytes. */
  lemma {:induction false} FlattenGrows(chunks: seq<Chunk>, i: nat, j: nat)
    requires i < j <= |chunks|
    requires forall k :: 0 <= k < |chunks| ==> chunks[k] != []
    ensures |Flatten(chunks[..i])| < |Flatten(chunks[..j])|
    decreases j - i
  {
    assert chunks[..j][..j - 1] == chunks[..j - 1];
    assert Flatten(chunks[..j]) == Flatten(chunks[..j - 1]) + chunks[j - 1];
    if i < j - 1 {
      FlattenGrows(chunks, i, j - 1);
    }
  }
}

=== FILE: header.dfy ===
/**
 * The transfer header: the client announces the file as
 * `<basename>|<decimal size>`; the server splits on `|`, demands exactly
 * two pieces and parses the second with `int()`.
 */
module Header {
  import opened Results
  import opened Text

  /** What a well-formed header announces. */
  datatype FileHeader = FileHeader(name: string, size: int)

  /** Why the server drops a header (both are a ValueError in the server). */
  datatype HeaderError =
    | PartCount(found: nat)       // the split did not give exactly two pieces
    | SizeNotInteger(text: string) // the second piece is not an integer literal

  const SEP: char := '|'

  /** Prefix of every file the server writes. */
  const SAVE_PREFIX: string := "RECEIVED_"

  /** The client's header for a file called `name` of `size` bytes: `name|<decimal size>`. */
  function Encode(name: string, size: nat): string
  {
    name + [SEP] + Decimal(size)
  }

  /**
   * An encoded header is the name, the separator, then a literal that parses
   * back to the size; it holds one separator more than the name.
   */
  lemma EncodeShape(name: string, size: nat)
    ensures var h := Encode(name, size);
      && |name| < |h| && h[..|name|] == name && h[|name|] == SEP
      && ParseInt(h[|name| + 1..]) == Some(size)
      && Count(h, SEP) == Count(name, SEP) + 1
  {
    var digits := Decimal(size);
    LiteralHasNoSeparator(digits, SEP);
    ParseDecimal(size);
    var h := name + [SEP] + digits;
    assert h[|name| + 1..] == digits;
    CountConcat(name + [SEP], digits, SEP);
    CountConcat(name, [SEP], SEP);
    CountPositive(digits, SEP);
  }

  /**
   * The server's reading of a header. A header whose separator count is not
   * one is refused for its piece count; an accepted header is its name, one
   * separator, and a literal for its size, and the name holds no separator.
   */
  function Decode(h: string): (r: Result<FileHeader, HeaderError>)
    ensures Count(h, SEP) != 1 ==> r == Failure(PartCount(Count(h, SEP) + 1))
    ensures r.Success? ==>
      var n := r.value.name;
      && |n| < |h| && h[..|n|] == n && h[|n|] == SEP && SEP !in n
      && ParseInt(h[|n| + 1..]) == Some(r.value.size)
  {
    var parts := Split(h, SEP);
    if |parts| != 2 then Failure(PartCount(|parts|))
    else
      assert Join(parts[1..], SEP) == parts[1];
      assert h == parts[0] + [SEP] + parts[1];
      assert h[..|parts[0]|] == parts[0] && h[|parts[0]| + 1..] == parts[1];
      assert SEP !in parts[0];
      match ParseInt(parts[1])
      case None => Failure(SizeNotInteger(parts[1]))
      case Some(v) => Success(FileHeader(parts[0], v))
  }

  /** On a header with exactly one separator, the decision rests on the size literal alone. */
  lemma DecodeOneSeparator(name: string, text: string)
    requires SEP !in name && SEP !in text
    ensures Decode(name + [SEP] + text) ==
      match ParseInt(text)
      case None => Failure(SizeNotInteger(text))
      case Some(v) => Success(FileHeader(name, v))
  {
    SplitJoin([name, text], SEP);
  }

  /** The place of the one separator in a header that names a file and a size literal. */
  predicate SeparatesAt(h: string, i: int)
  {
    0 <= i < |h| && h[i] == SEP && SEP !in h[..i] && SEP !in h[i + 1..] && IntLiteral(h[i + 1..])
  }

  /**
   * A header is accepted exactly when it has one separator and the text
   * after it is an integer literal.
   */
  lemma DecodeAcceptsIff(h: string)
    ensures Decode(h).Success? <==> exists i :: SeparatesAt(h, i)
  {
    if Decode(h).Success? {
      AcceptedSeparates(h);
    }
    if exists i :: SeparatesAt(h, i) {
      var i :| SeparatesAt(h, i);
      SeparatedAccepted(h, i);
    }
  }

  lemma AcceptedSeparates(h: string)
    requires Decode(h).Success?
    ensures SeparatesAt(h, |Decode(h).value.name|)
  {
    var r := Decode(h);
    var i := |r.value.name|;
    assert h[..i] == r.value.name;
    LiteralHasNoSeparator(h[i + 1..], SEP);
  }

  lemma SeparatedAccepted(h: string, i: int)
    requires SeparatesAt(h, i)
    ensures Decode(h) == Success(FileHeader(h[..i], ParseInt(h[i + 1..]).value))
  {
    assert h == h[..i] + [SEP] + h[i + 1..];
    DecodeOneSeparator(h[..i], h[i + 1..]);
  }

  /**
   * A name holding the separator can never be announced: the client's
   * header then splits into three or more pieces and the server refuses it.
   */
  lemma NameWithSeparatorRejected(name: string, size: nat)
    requires SEP in name
    ensures Decode(Encode(name, size)) == Failure(PartCount(Count(name, SEP) + 2))
    ensures Count(name, SEP) + 2 >= 3
  {
    CountPositive(name, SEP);
    EncodeShape(name, size);
    var h := Encode(name, size);
    assert Count(h, SEP) >= 2;
  }

  /** The server reads back exactly what the client announced, for any name without a separator. */
  lemma {:induction false} RoundTrip(name: string, size: nat)
    requires SEP !in name
    ensures Decode(Encode(name, size)) == Success(FileHeader(name, size))
  {
    var digits := Decimal(size);
    LiteralHasNoSeparator(digits, SEP);
    ParseDecimal(size);
    DecodeOneSeparator(name, digits);
  }

  /**
   * The server's file name for an announced name: the fixed prefix, then
   * the longest `/`-free suffix of the name, so the result never contains
   * a `/` and always lands in the working directory.
   */
  function SaveName(name: string): (r: string)
    ensures |SAVE_PREFIX| <= |r| && r[..|SAVE_PREFIX|] == SAVE_PREFIX
    ensures '/' !in r
    ensures
      var b := r[|SAVE_PREFIX|..];
      && |b| <= |name| && b == name[|name| - |b|..]
      && (|b| < |name| ==> name[|name| - |b| - 1] == '/')
  {
    var b := Basename(name);
    var r := SAVE_PREFIX + b;
    assert r[..|SAVE_PREFIX|] == SAVE_PREFIX && r[|SAVE_PREFIX|..] == b;
    PrefixNoSlash();
    NotInConcat('/', SAVE_PREFIX, b);
    r
  }

  /** The save prefix holds no `/`. */
  lemma PrefixNoSlash()
    ensures '/' !in SAVE_PREFIX
  {
  }

  /** A name the client already stripped to its basename is saved under the prefix plus that very name. */
  lemma SaveNameOfBasename(path: string)
    ensures SaveName(Basename(path)) == SAVE_PREFIX + Basename(path)
  {
    BasenameIdempotent(path);
  }
}

=== FILE: protocol.dfy ===
/**
 * The two programs together: the client's `start_transfer` writes a header
 * and the payload chunks to a connection, and the server's `receive_file`
 * reads that header and then the payload. The server's reads are any
 * non-empty cut of a prefix of the bytes the client's `sendall` calls
 * accepted, followed by the close: when the client finishes or fails,
 * leaving its `with` block closes the socket.
 */
module Protocol {
  import opened Results
  import opened Bytes
  import opened Text
  import opened Header
  import opened Receiver
  import opened Sender

  /**
   * The header the client announces for `path` is the one the server
   * decodes, and the file is saved under `RECEIVED_` plus the basename,
   * exactly when the basename holds no separator; otherwise the server
   * refuses the header (HeaderDecoded says with which error).
   */
  lemma HeaderAgreement(path: string, size: nat)
    ensures SEP !in Basename(path) ==>
      && Decode(Encode(Basename(path), size)) == Success(FileHeader(Basename(path), size))
      && SaveName(Basename(path)) == SAVE_PREFIX + Basename(path)
    ensures SEP in Basename(path) ==> Decode(Encode(Basename(path), size)).Failure?
  {
    HeaderDecoded(Basename(path), size);
    SaveNameOfBasename(path);
  }

  /** Decoding an encoded header gives back the name and size, or reports the extra parts a separator in the name adds. */
  lemma HeaderDecoded(name: string, size: nat)
    ensures SEP !in name ==> Decode(Encode(name, size)) == Success(FileHeader(name, size))
    ensures SEP in name ==>
      && Decode(Encode(name, size)) == Failure(PartCount(Count(name, SEP) + 2))
      && Count(name, SEP) + 2 >= 3
  {
    if SEP in name {
      NameWithSeparatorRejected(name, size);
    } else {
      RoundTrip(name, size);
    }
  }

  /**
   * The bytes `sendall` accepted over `link`: the whole file, or the chunks
   * before the one the link breaks on; nothing on a refused connection.
   */
  function SentBytes(data: seq<byte>, link: Link): seq<byte>
  {
    var n := |FileChunks(data)|;
    var k := if link == Refused then 0 else if link.BreaksAt? && link.chunk < n then link.chunk else n;
    Flatten(FileChunks(data)[..k])
  }

  /**
   * What TCP gives the server's `recv` calls: the stream is cut into
   * non-empty reads in any way, and the bytes read are a prefix of the
   * bytes the client handed to `sendall` (a lost connection may cut it
   * short).
   */
  ghost predicate ReadsOf(conn: seq<Chunk>, sent: seq<byte>)
  {
    && (forall i :: 0 <= i < |conn| ==> conn[i] != [])
    && |Flatten(conn)| <= |sent|
    && Flatten(conn) == sent[..|Flatten(conn)|]
  }

  /**
   * Whatever reads the server gets from the first `j` chunks of the file,
   * its loop consumes all of them and saves exactly their bytes, a prefix of
   * the file. The file is whole only if all its chunks were sent, and when
   * every byte sent arrived, it is whole exactly when all chunks were sent.
   */
  lemma ReadsDelivered(data: seq<byte>, j: nat, conn: seq<Chunk>, k: nat)
    requires j <= |FileChunks(data)|
    requires ReadsOf(conn, Flatten(FileChunks(data)[..j]))
    requires StopsAt(conn, |data|, k)
    ensures k == |conn|
    ensures Flatten(conn[..k]) == Flatten(conn)
    ensures |Flatten(conn)| <= |data| && Flatten(conn) == data[..|Flatten(conn)|]
    ensures Flatten(conn) == data ==> j == |FileChunks(data)|
    ensures Flatten(conn) == Flatten(FileChunks(data)[..j]) ==> (Flatten(conn) == data <==> j == |FileChunks(data)|)
  {
    var chunks := FileChunks(data);
    FileChunksShape(data);
    FlattenPrefix(chunks, j, |chunks|);
    assert chunks[..|chunks|] == chunks;
    var sent := Flatten(chunks[..j]);
    assert data == sent + Flatten(chunks[j..]);
    if j < |chunks| {
      FlattenGrows(chunks, j, |chunks|);
    }
    var got := Flatten(conn);
    assert got == data[..|got|];
    assert conn[..|conn|] == conn;
    if |got| < |data| {
      EarlyClose(conn, |data|, |conn|, k);
    } else {
      CompleteDelivery(conn, data, |conn|, k);
    }
  }

  /**
   * One session: the client transfers the file at `path` over `link`, and
   * the server, if the header reached it, receives the payload as the reads
   * `conn`. No header goes out when the connection is refused. The server
   * drops the connection exactly when the basename holds the separator;
   * otherwise it saves what it read under `RECEIVED_<basename>`, a prefix of
   * the file. A whole file means the client reported completion; the
   * converse needs every byte `sendall` accepted to arrive, since nothing
   * acknowledges them.
   */
  method Session(path: string, data: seq<byte>, clock: nat -> real, link: Link,
                 conn: seq<Chunk>, startTime: real, endTime: real)
    returns (app: Client, out: Option<Received>)
    requires ReadsOf(conn, SentBytes(data, link))
    ensures out.None? <==> link == Refused
    ensures out.Some? ==> (out.value.Dropped? <==> SEP in Basename(path))
    ensures out.Some? && out.value.Saved? ==>
      && out.value.saveName == SAVE_PREFIX + Basename(path)
      && out.value.header == FileHeader(Basename(path), |data|)
      && out.value.file == Flatten(conn)
      && |out.value.file| <= |data|
      && out.value.file == data[..|out.value.file|]
      && (out.value.file == data ==> app.status == Complete)
      && (Flatten(conn) == SentBytes(data, link) ==> (out.value.file == data <==> app.status == Complete))
  {
    var wire;
    app, wire := StartTransfer(Client(Idle, 0.0, 0.0, [], []), path, true, data, clock, link);
    if wire.header.None? {
      out := None;
      return;
    }
    HeaderAgreement(path, |data|);
    assert SentBytes(data, link) == Flatten(wire.payload);
    var received := ReceiveFile(wire.header.value, conn, startTime, endTime);
    if received.Saved? {
      ReadsDelivered(data, |wire.payload|, conn, received.consumed);
    }
    out := Some(received);
  }
}

=== FILE: receiver.dfy ===
/**
 * The server's `receive_file`: decode the header, derive the save name,
 * then append chunks read from the connection to the new file until the
 * announced size is reached or the peer closes. The connection is the
 * sequence of chunks its reads return; a read past the end returns the
 * empty chunk, which is how a closed peer shows.
 */
module Receiver {
  import opened Results
  import opened Bytes
  import opened Text
  import opened Header
  import opened Throughput

  /** The result of `conn.recv(BUFFER_SIZE)` for the i-th read. */
  function Recv(conn: seq<Chunk>, i: nat): Chunk
  {
    if i < |conn| then conn[i] else []
  }

  /**
   * Whether the i-th pass of the receive loop appends a chunk: fewer than
   * `filesize` bytes have arrived and the read is non-empty.
   */
  predicate Continues(conn: seq<Chunk>, filesize: int, i: nat)
    requires i <= |conn|
  {
    |Flatten(conn[..i])| < filesize && Recv(conn, i) != []
  }

  /**
   * The receive loop appends exactly the first `k` chunks: each of them was
   * read while the file was short and was non-empty, and the loop ends at
   * the `k`-th pass because the size is reached or the read is empty.
   */
  ghost predicate StopsAt(conn: seq<Chunk>, filesize: int, k: nat)
  {
    && k <= |conn|
    && (forall j :: 0 <= j < k ==> Continues(conn, filesize, j))
    && !Continues(conn, filesize, k)
  }

  /** The loop's stopping point is determined by the connection and the size. */
  lemma StopsAtUnique(conn: seq<Chunk>, filesize: int, k1: nat, k2: nat)
    requires StopsAt(conn, filesize, k1) && StopsAt(conn, filesize, k2)
    ensures k1 == k2
  {
  }

  /**
   * The receive loop (server.py lines 26-35). The file is the concatenation
   * of the chunks consumed, the counter is its length, and the loop stops
   * exactly where StopsAt says. A size of zero or less runs no pass and
   * leaves the file empty. Reads are not capped to the remaining count, so
   * with reads of at most BUFFER_SIZE bytes the file may exceed a positive
   * size by up to BUFFER_SIZE - 1 bytes.
   */
  method ReceivePayload(conn: seq<Chunk>, filesize: int) returns (file: seq<byte>, bytesReceived: nat, consumed: nat)
    ensures StopsAt(conn, filesize, consumed)
    ensures file == Flatten(conn[..consumed])
    ensures bytesReceived == |file|
    ensures filesize <= 0 ==> consumed == 0 && file == []
    ensures ChunksBounded(conn) && 0 < filesize ==> bytesReceived <= filesize + BUFFER_SIZE - 1
  {
    file := [];
    bytesReceived := 0;
    consumed := 0;
    while bytesReceived < filesize
      invariant consumed <= |conn|
      invariant file == Flatten(conn[..consumed])
      invariant bytesReceived == |file|
      invariant filesize <= 0 ==> consumed == 0
      invariant forall j :: 0 <= j < consumed ==> Continues(conn, filesize, j)
      invariant ChunksBounded(conn) && 0 < filesize ==> bytesReceived <= filesize + BUFFER_SIZE - 1
      decreases |conn| - consumed
    {
      var data := Recv(conn, consumed);
      if data == [] {
        break;
      }
      FlattenSnoc(conn[..consumed], data);
      assert conn[..consumed + 1] == conn[..consumed] + [data];
      file := file + data;
      bytesReceived := bytesReceived + |data|;
      consumed := consumed + 1;
    }
  }

  /** The server's final statistics: bytes received, the guarded total time, and the average speed. */
  datatype FinalStats = FinalStats(totalBytes: nat, totalSeconds: real, averageSpeed: real)

  /**
   * The statistics the server prints (server.py lines 37-39): the total
   * time is positive whatever the two clock readings, and the average speed
   * times the total time is the byte count, in MB.
   */
  function ServerStats(bytes: nat, startTime: real, endTime: real): (st: FinalStats)
    ensures st.totalBytes == bytes
    ensures 0.0 < st.totalSeconds
    ensures endTime > startTime ==> st.totalSeconds == endTime - startTime
    ensures st.averageSpeed * st.totalSeconds * 1048576.0 == bytes as real
  {
    var totalTime := TotalTime(startTime, endTime);
    RateScales(bytes, totalTime);
    FinalStats(bytes, totalTime, Rate(bytes, totalTime))
  }

  /** What one connection leaves behind. */
  datatype Received =
    | Dropped(reason: HeaderError)
    | Saved(saveName: string, header: FileHeader, file: seq<byte>, consumed: nat, stats: FinalStats)

  /**
   * `receive_file` on a connection whose first read returned `header` and
   * whose later reads return `conn`, with `startTime` and `endTime` the two
   * clock readings. A header the codec refuses drops the connection before
   * any file is opened; otherwise the file `RECEIVED_<basename>` holds the
   * bytes the loop consumed, and the average speed divides by a total time
   * that is always positive. An early close is not an error.
   */
  method ReceiveFile(header: string, conn: seq<Chunk>, startTime: real, endTime: real) returns (out: Received)
    ensures out.Dropped? <==> Decode(header).Failure?
    ensures out.Dropped? ==> out.reason == Decode(header).error
    ensures out.Saved? ==>
      && out.header == Decode(header).value
      && out.saveName == SaveName(out.header.name)
      && StopsAt(conn, out.header.size, out.consumed)
      && out.file == Flatten(conn[..out.consumed])
      && out.stats == ServerStats(|out.file|, startTime, endTime)
  {
    var decoded := Decode(header);
    if decoded.Failure? {
      out := Dropped(decoded.error);
      return;
    }
    var h := decoded.value;
    var saveName := SaveName(h.name);
    var file, bytesReceived, consumed := ReceivePayload(conn, h.size);
    out := Saved(saveName, h, file, consumed, ServerStats(bytesReceived, startTime, endTime));
  }

  /**
   * Peer closes early: when the first `c` reads are non-empty, carry fewer
   * than `filesize` bytes, and the next read is empty, the loop stops after
   * exactly those `c` chunks, so the file has exactly their bytes.
   */
  lemma {:induction false} EarlyClose(conn: seq<Chunk>, filesize: int, c: nat, k: nat)
    requires c <= |conn|
    requires forall j :: 0 <= j < c ==> conn[j] != []
    requires Recv(conn, c) == []
    requires |Flatten(conn[..c])| < filesize
    requires StopsAt(conn, filesize, k)
    ensures k == c
    ensures |Flatten(conn[..k])| < filesize
  {
    forall j | 0 <= j < c
      ensures Continues(conn, filesize, j)
    {
      assert conn[..c][..j] == conn[..j];
      FlattenGrows(conn[..c], j, c);
      assert conn[..c][..c] == conn[..c];
    }
    assert StopsAt(conn, filesize, c);
    StopsAtUnique(conn, filesize, k, c);
  }

  /**
   * A complete delivery: when the first `c` reads are non-empty and carry
   * exactly the announced `|data|` bytes, the file is byte-identical to
   * `data`, whatever the connection carries afterwards and however the
   * bytes were cut into chunks.
   */
  lemma {:induction false} CompleteDelivery(conn: seq<Chunk>, data: seq<byte>, c: nat, k: nat)
    requires c <= |conn|
    requires forall j :: 0 <= j < c ==> conn[j] != []
    requires Flatten(conn[..c]) == data
    requires StopsAt(conn, |data|, k)
    ensures k == c
    ensures Flatten(conn[..k]) == data
  {
    forall j | 0 <= j < c
      ensures Continues(conn, |data|, j)
    {
      assert conn[..c][..j] == conn[..j];
      FlattenGrows(conn[..c], j, c);
      assert conn[..c][..c] == conn[..c];
    }
    assert StopsAt(conn, |data|, c);
    StopsAtUnique(conn, |data|, k, c);
  }

  /** `int()` takes a sign, so the server accepts a header announcing a negative size, and then writes an empty file. */
  lemma NegativeSizeAccepted(name: string, n: nat)
    requires SEP !in name && 0 < n
    ensures Decode(name + [SEP] + ("-" + Decimal(n))) == Success(FileHeader(name, -(n as int)))
  {
    ParseNegative(n);
    LiteralHasNoSeparator("-" + Decimal(n), SEP);
    DecodeOneSeparator(name, "-" + Decimal(n));
  }
}

=== FILE: results.dfy ===
/** An optional value and a value-or-error result, used by the header codec. */
module Results {

  /** A value that may be absent, e.g. the outcome of parsing an integer. */
  datatype Option<+T> = None | Some(value: T)

  /** Either a value or the error that stopped its computation. */
  datatype Result<+T, +E> = Success(value: T) | Failure(error: E)
}

=== FILE: sender.dfy ===
/**
 * The client's `start_transfer`: check the path, reset the samples, send
 * the header, then read the file in chunks of at most BUFFER_SIZE bytes,
 * send each one and update the throughput bookkeeping after it.
 *
 * The clock is a function from the index of a `time.time()` call to its
 * reading: call 0 is `start_time`, call i + 1 is `now` after chunk i, and
 * the call after the last chunk gives the total time.
 */
module Sender {
  import opened Results
  import opened Bytes
  import opened Text
  import opened Header
  import opened Throughput

  /** The chunks `f.read(BUFFER_SIZE)` returns until the empty read. */
  function FileChunks(data: seq<byte>): seq<Chunk>
    decreases |data|
  {
    if |data| == 0 then []
    else if |data| <= BUFFER_SIZE then [data]
    else [data[..BUFFER_SIZE]] + FileChunks(data[BUFFER_SIZE..])
  }

  /**
   * Every chunk is non-empty and at most BUFFER_SIZE long, every chunk but
   * the last is full, and together they are the file.
   */
  lemma {:induction false} FileChunksShape(data: seq<byte>)
    ensures var chunks := FileChunks(data);
      && Flatten(chunks) == data
      && (forall i :: 0 <= i < |chunks| ==> 0 < |chunks[i]| <= BUFFER_SIZE)
      && (forall i :: 0 <= i < |chunks| - 1 ==> |chunks[i]| == BUFFER_SIZE)
    decreases |data|
  {
    if |data| == 0 {
    } else if |data| <= BUFFER_SIZE {
      FlattenCons(data, []);
    } else {
      var rest := data[BUFFER_SIZE..];
      FileChunksShape(rest);
      FlattenCons(data[..BUFFER_SIZE], FileChunks(rest));
      assert data[..BUFFER_SIZE] + rest == data;
    }
  }

  /** Bytes sent once `k` chunks of an `n`-byte file have gone out: each chunk adds BUFFER_SIZE bytes until the file runs out. */
  function SentAfter(n: nat, k: nat): (sent: nat)
    ensures sent <= n
    decreases k
  {
    if k == 0 then 0
    else
      var prev := SentAfter(n, k - 1);
      if prev + BUFFER_SIZE < n then prev + BUFFER_SIZE else n
  }

  /**
   * The bookkeeping after the first `k` chunks of an `n`-byte file, starting
   * from empty sample lists at clock call 0. It records at most one sample
   * per chunk; ReplayKeepsInv shows it keeps the sampler invariant.
   */
  function Replay(n: nat, clock: nat -> real, k: nat): (s: Sampler)
    ensures s.startTime == clock(0)
    ensures |s.times| <= k
    decreases k
  {
    if k == 0 then Begin(clock(0))
    else Observe(Replay(n, clock, k - 1), SentAfter(n, k), clock(k))
  }

  /** The bookkeeping after any number of chunks satisfies SamplerInv for the bytes sent so far. */
  lemma {:induction false} ReplayKeepsInv(n: nat, clock: nat -> real, k: nat)
    ensures SamplerInv(Replay(n, clock, k), SentAfter(n, k))
    decreases k
  {
    if k > 0 {
      var prev := Replay(n, clock, k - 1);
      ReplayKeepsInv(n, clock, k - 1);
      ObservePreservesInv(prev, SentAfter(n, k - 1), SentAfter(n, k), clock(k));
      assert Replay(n, clock, k) == Observe(prev, SentAfter(n, k), clock(k));
    }
  }

  /** Helper for ProgressStep: one more chunk is one more Observe. */
  lemma ReplayStep(n: nat, clock: nat -> real, k: nat)
    ensures Replay(n, clock, k + 1) == Observe(Replay(n, clock, k), SentAfter(n, k + 1), clock(k + 1))
  {
  }

  /** How the connection behaves: refused (or fails on the header), fails on the payload chunk with that index, or carries everything. */
  datatype Link = Refused | BreaksAt(chunk: nat) | Reliable

  /**
   * The send loop (client_gui.py lines 115-150). On a link that breaks at
   * chunk `k` it stops there with an error; otherwise it sends the whole
   * file. Either way the chunks sent are a prefix of FileChunks(data), the
   * counter is their total length, and the bookkeeping is the Replay of
   * exactly the chunks sent.
   */
  method SendPayload(data: seq<byte>, clock: nat -> real, link: Link)
    returns (sent: seq<Chunk>, bytesSent: nat, s: Sampler, completed: bool)
    ensures completed <==> !(link.BreaksAt? && link.chunk < |FileChunks(data)|)
    ensures |sent| == if completed then |FileChunks(data)| else link.chunk
    ensures sent == FileChunks(data)[..|sent|]
    ensures s == Replay(|data|, clock, |sent|)
    ensures bytesSent == SentAfter(|data|, |sent|) == |Flatten(sent)|
    ensures completed ==> sent == FileChunks(data) && Flatten(sent) == data && bytesSent == |data|
  {
    sent, bytesSent, s, completed := SendLoop(data, clock, link);
    SendOutcome(data, clock, link, sent, bytesSent, s, completed);
  }

  /** The loop itself: it stops at the empty read or at the chunk the link breaks on, keeping Progress. */
  method SendLoop(data: seq<byte>, clock: nat -> real, link: Link)
    returns (sent: seq<Chunk>, bytesSent: nat, s: Sampler, completed: bool)
    ensures Progress(data, clock, link, sent, bytesSent, s)
    ensures completed ==> bytesSent == |data|
    ensures !completed ==> link == BreaksAt(|sent|) && bytesSent < |data|
  {
    sent := [];
    bytesSent := 0;
    s := Begin(clock(0));
    var i := 0;
    while true
      invariant Progress(data, clock, link, sent, bytesSent, s)
      invariant i == |sent|
      decreases |data| - bytesSent
    {
      var end := if bytesSent + BUFFER_SIZE < |data| then bytesSent + BUFFER_SIZE else |data|;
      var chunk := data[bytesSent..end];
      if chunk == [] {
        assert |chunk| == end - bytesSent;
        break;
      }
      if link == BreaksAt(i) {
        completed := false;
        return;
      }
      ProgressStep(data, clock, link, sent, bytesSent, s);
      sent := sent + [chunk];
      bytesSent := end;
      i := i + 1;
      s := Observe(s, bytesSent, clock(i));
    }
    completed := true;
  }

  /**
   * The send loop's invariant: SendInv, the counter is SentAfter the chunks
   * sent, the bookkeeping is their Replay, and a breaking link has not been
   * reached yet.
   */
  ghost predicate Progress(data: seq<byte>, clock: nat -> real, link: Link, sent: seq<Chunk>, pos: nat, s: Sampler)
  {
    && SendInv(data, sent, pos)
    && pos == SentAfter(|data|, |sent|)
    && s == Replay(|data|, clock, |sent|)
    && (link.BreaksAt? ==> |sent| <= link.chunk)
  }

  /** Sending one more chunk on a link that does not break there keeps Progress. */
  lemma ProgressStep(data: seq<byte>, clock: nat -> real, link: Link, sent: seq<Chunk>, pos: nat, s: Sampler)
    requires Progress(data, clock, link, sent, pos, s)
    requires pos < |data|
    requires link != BreaksAt(|sent|)
    ensures var end := if pos + BUFFER_SIZE < |data| then pos + BUFFER_SIZE else |data|;
      Progress(data, clock, link, sent + [data[pos..end]], end, Observe(s, end, clock(|sent| + 1)))
  {
    SendStep(data, sent, pos);
    ReplayStep(|data|, clock, |sent|);
  }

  /** Where the loop stops, the results are the ones SendPayload promises. */
  lemma SendOutcome(data: seq<byte>, clock: nat -> real, link: Link,
                    sent: seq<Chunk>, bytesSent: nat, s: Sampler, completed: bool)
    requires Progress(data, clock, link, sent, bytesSent, s)
    requires completed ==> bytesSent == |data|
    requires !completed ==> link == BreaksAt(|sent|) && bytesSent < |data|
    ensures completed <==> !(link.BreaksAt? && link.chunk < |FileChunks(data)|)
    ensures |sent| == if completed then |FileChunks(data)| else link.chunk
    ensures sent == FileChunks(data)[..|sent|]
    ensures s == Replay(|data|, clock, |sent|)
    ensures bytesSent == SentAfter(|data|, |sent|) == |Flatten(sent)|
    ensures completed ==> sent == FileChunks(data) && Flatten(sent) == data && bytesSent == |data|
  {
    SendInvPrefix(data, sent, bytesSent);
    if completed {
      SendInvDone(data, sent, bytesSent);
    }
  }

  /** The loop's view of the file: the chunks sent so far plus the chunks still to read are the file's chunks, and the bytes sent are the file's first `pos` bytes. */
  ghost predicate SendInv(data: seq<byte>, sent: seq<Chunk>, pos: nat)
  {
    && pos <= |data|
    && sent + FileChunks(data[pos..]) == FileChunks(data)
    && Flatten(sent) == data[..pos]
  }

  /** Sending the next chunk keeps SendInv. */
  lemma SendStep(data: seq<byte>, sent: seq<Chunk>, pos: nat)
    requires SendInv(data, sent, pos)
    requires pos < |data|
    ensures var end := if pos + BUFFER_SIZE < |data| then pos + BUFFER_SIZE else |data|;
      SendInv(data, sent + [data[pos..end]], end)
  {
    var end := if pos + BUFFER_SIZE < |data| then pos + BUFFER_SIZE else |data|;
    var chunk := data[pos..end];
    ChunkStep(data, pos);
    FlattenSnoc(sent, chunk);
    assert data[..end] == data[..pos] + chunk;
    assert sent + [chunk] + FileChunks(data[end..]) == sent + ([chunk] + FileChunks(data[end..]));
  }

  /** Under SendInv the chunks sent are a prefix of the file's chunks. */
  lemma SendInvPrefix(data: seq<byte>, sent: seq<Chunk>, pos: nat)
    requires SendInv(data, sent, pos)
    ensures |sent| <= |FileChunks(data)| && sent == FileChunks(data)[..|sent|]
    ensures pos < |data| ==> |sent| < |FileChunks(data)|
  {
    var rest := FileChunks(data[pos..]);
    assert FileChunks(data)[..|sent|] == (sent + rest)[..|sent|];
  }

  /** At the empty read every chunk has been sent and the bytes sent are the file. */
  lemma SendInvDone(data: seq<byte>, sent: seq<Chunk>, pos: nat)
    requires SendInv(data, sent, pos)
    requires pos == |data|
    ensures sent == FileChunks(data) && Flatten(sent) == data
  {
    assert data[pos..] == [] && data[..pos] == data;
    assert sent + [] == sent;
  }

  /** Reading at `pos` takes the next chunk of FileChunks off the remaining data. */
  lemma ChunkStep(data: seq<byte>, pos: nat)
    requires pos < |data|
    ensures var end := if pos + BUFFER_SIZE < |data| then pos + BUFFER_SIZE else |data|;
      FileChunks(data[pos..]) == [data[pos..end]] + FileChunks(data[end..])
  {
    var rest := data[pos..];
    if pos + BUFFER_SIZE < |data| {
      assert rest[..BUFFER_SIZE] == data[pos..pos + BUFFER_SIZE];
      assert rest[BUFFER_SIZE..] == data[pos + BUFFER_SIZE..];
    } else {
      assert rest == data[pos..|data|];
      assert FileChunks(rest) == [rest];
      assert data[|data|..] == [];
    }
  }

  /** The outcome shown in the status label. */
  datatype Status = Idle | Complete | Error

  /**
   * What the client object holds across transfers: the status, the current
   * and average speed labels, and the recorded samples the graph plots.
   */
  datatype Client = Client(status: Status, currentSpeed: real, avgSpeed: real, times: seq<real>, speeds: seq<real>)

  /** What the client handed to its socket: the header, if it was sent, and the payload chunks whose `sendall` returned. */
  datatype Wire = Wire(header: Option<string>, payload: seq<Chunk>)

  /**
   * `start_transfer` for the path in the form, where `isFile` is the result
   * of `os.path.isfile` and `data` the file's contents.
   *  - Not a file: nothing is sent and the client state, samples included,
   *    is unchanged.
   *  - Otherwise the samples are reset first, so the final samples are the
   *    Replay of this transfer's chunks alone, whatever the earlier state.
   *  - A refused connection leaves empty samples and an error.
   *  - Otherwise the transfer runs to completion or to the failing chunk,
   *    as Transferred describes.
   */
  method StartTransfer(app: Client, path: string, isFile: bool, data: seq<byte>, clock: nat -> real, link: Link)
    returns (app': Client, wire: Wire)
    ensures !isFile ==> app' == app && wire == Wire(None, [])
    ensures isFile && link == Refused ==>
      app' == Client(Error, 0.0, 0.0, [], []) && wire == Wire(None, [])
    ensures isFile && link != Refused ==> Transferred(path, data, clock, link, app', wire)
  {
    if !isFile {
      app' := app;
      wire := Wire(None, []);
      return;
    }
    var reset := Client(Idle, 0.0, 0.0, [], []);
    if link == Refused {
      app' := reset.(status := Error);
      wire := Wire(None, []);
      return;
    }
    app', wire := Transfer(path, data, clock, link);
  }

  /**
   * The outcome of a transfer over a connection that was accepted: the
   * header announces the basename and the file size, and the payload is the
   * file's chunks up to the failure, if any. The samples are the Replay of
   * exactly the chunks sent. A full send ends Complete with the current
   * speed reset to 0 and the average speed over the total time (0 if that
   * is not positive); a failed one ends in Error with the speeds last shown.
   */
  ghost predicate Transferred(path: string, data: seq<byte>, clock: nat -> real, link: Link, app: Client, wire: Wire)
  {
    var n := |FileChunks(data)|;
    var k := |wire.payload|;
    var samples := Replay(|data|, clock, k);
    && wire.header == Some(Encode(Basename(path), |data|))
    && k == (if link.BreaksAt? && link.chunk < n then link.chunk else n)
    && wire.payload == FileChunks(data)[..k]
    && app.times == samples.times
    && app.speeds == samples.speeds
    && (app.status == Complete <==> k == n)
    && (app.status == Complete ==>
          && Flatten(wire.payload) == data
          && app.currentSpeed == 0.0
          && app.avgSpeed == AverageSpeed(|data|, clock(k + 1) - clock(0)))
    && (app.status != Complete ==>
          && app.status == Error
          && app.currentSpeed == samples.current
          && app.avgSpeed == samples.average)
  }

  /** The part of `start_transfer` after the connection is made: send the header, then the payload, then report. */
  method Transfer(path: string, data: seq<byte>, clock: nat -> real, link: Link)
    returns (app: Client, wire: Wire)
    requires link != Refused
    ensures Transferred(path, data, clock, link, app, wire)
  {
    var header := Encode(Basename(path), |data|);
    var sent, bytesSent, s, completed := SendPayload(data, clock, link);
    wire := Wire(Some(header), sent);
    if completed {
      var totalTime := clock(|sent| + 1) - s.startTime;
      assert bytesSent == |data| && totalTime == clock(|wire.payload| + 1) - clock(0);
      app := Client(Complete, 0.0, AverageSpeed(bytesSent, totalTime), s.times, s.speeds);
    } else {
      app := Client(Error, s.current, s.average, s.times, s.speeds);
    }
  }
}

=== FILE: text.dfy ===
/**
 * The string operations the transfer header relies on: Python's
 * `str.split`, `os.path.basename` (POSIX flavour), `str(n)` for a
 * non-negative integer, and `int()` on a decimal literal.
 */
module Text {
  import opened Results

  /** The number of occurrences of `c` in `s`. */
  function Count(s: string, c: char): nat
    decreases |s|
  {
    if |s| == 0 then 0 else Count(s[..|s| - 1], c) + (if s[|s| - 1] == c then 1 else 0)
  }

  /** Occurrences add up over a concatenation. */
  lemma {:induction false} CountConcat(a: string, b: string, c: char)
    ensures Count(a + b, c) == Count(a, c) + Count(b, c)
    decreases |b|
  {
    if |b| == 0 {
      assert a + b == a;
    } else {
      assert (a + b)[..|a + b| - 1] == a + b[..|b| - 1];
      CountConcat(a, b[..|b| - 1], c);
    }
  }

  /** A character occurs in `s` exactly when its count is positive. */
  lemma {:induction false} CountPositive(s: string, c: char)
    ensures c in s <==> 0 < Count(s, c)
    decreases |s|
  {
    if |s| > 0 {
      var p := s[..|s| - 1];
      CountPositive(p, c);
      assert s == p + [s[|s| - 1]];
    }
  }

  /** The pieces of `parts`, with `sep` between consecutive pieces. */
  function Join(parts: seq<string>, sep: char): string
    decreases |parts|
  {
    if |parts| == 0 then ""
    else if |parts| == 1 then parts[0]
    else parts[0] + [sep] + Join(parts[1..], sep)
  }

  /**
   * `s.split(sep)`: the maximal runs of `s` between occurrences of `sep`.
   * There is one more piece than there are separators, no piece holds a
   * separator, and joining the pieces gives back `s`.
   */
  function Split(s: string, sep: char): (parts: seq<string>)
    ensures |parts| == Count(s, sep) + 1
    ensures forall i :: 0 <= i < |parts| ==> sep !in parts[i]
    ensures Join(parts, sep) == s
    decreases |s|
  {
    if |s| == 0 then [""]
    else
      var rest := Split(s[1..], sep);
      assert s == [s[0]] + s[1..];
      CountConcat([s[0]], s[1..], sep);
      if s[0] == sep then
        assert ([""] + rest)[1..] == rest;
        [""] + rest
      else
        var parts := [[s[0]] + rest[0]] + rest[1..];
        NotInConcat(sep, [s[0]], rest[0]);
        JoinHead(rest, sep, [s[0]]);
        assert forall i :: 1 <= i < |parts| ==> parts[i] == rest[i];
        parts
  }

  /** A character in neither of two strings is not in their concatenation. */
  lemma NotInConcat(c: char, a: string, b: string)
    requires c !in a && c !in b
    ensures c !in a + b
  {
  }

  /** Prefixing the first piece prefixes the joined string. */
  lemma JoinHead(parts: seq<string>, sep: char, x: string)
    requires |parts| >= 1
    ensures Join([x + parts[0]] + parts[1..], sep) == x + Join(parts, sep)
  {
    var q := [x + parts[0]] + parts[1..];
    assert q[0] == x + parts[0] && q[1..] == parts[1..];
  }

  /** Splitting at the first separator peels off the separator-free head. */
  lemma {:induction false} SplitAtFirst(a: string, sep: char, b: string)
    requires sep !in a
    ensures Split(a + [sep] + b, sep) == [a] + Split(b, sep)
    decreases |a|
  {
    var s := a + [sep] + b;
    if |a| == 0 {
      assert s[0] == sep && s[1..] == b;
    } else {
      assert s[0] == a[0] && s[1..] == a[1..] + [sep] + b;
      SplitAtFirst(a[1..], sep, b);
      var rest := Split(s[1..], sep);
      assert rest == [a[1..]] + Split(b, sep);
      assert rest[0] == a[1..] && rest[1..] == Split(b, sep);
      assert [s[0]] + a[1..] == a;
    }
  }

  /** Split is the inverse of Join on separator-free pieces. */
  lemma {:induction false} SplitJoin(parts: seq<string>, sep: char)
    requires |parts| >= 1
    requires forall i :: 0 <= i < |parts| ==> sep !in parts[i]
    ensures Split(Join(parts, sep), sep) == parts
    decreases |parts|
  {
    if |parts| == 1 {
      var r := Split(parts[0], sep);
      assert |r| == 1;
    } else {
      SplitJoin(parts[1..], sep);
      SplitAtFirst(parts[0], sep, Join(parts[1..], sep));
      assert [parts[0]] + parts[1..] == parts;
    }
  }

  /**
   * `os.path.basename(p)` for POSIX paths: everything after the last `/`.
   * The result is the longest suffix of `p` without a `/`: it holds no
   * `/`, it ends `p`, and the character before it (if any) is a `/`.
   */
  function Basename(p: string): (b: string)
    ensures '/' !in b
    ensures |b| <= |p| && b == p[|p| - |b|..]
    ensures |b| < |p| ==> p[|p| - |b| - 1] == '/'
    decreases |p|
  {
    if |p| == 0 || p[|p| - 1] == '/' then ""
    else Basename(p[..|p| - 1]) + [p[|p| - 1]]
  }

  /** A name with no `/` is its own basename, so stripping twice changes nothing. */
  lemma BasenameIdempotent(p: string)
    ensures Basename(Basename(p)) == Basename(p)
  {
  }

  predicate IsDigit(c: char)
  {
    '0' <= c <= '9'
  }

  predicate AllDigits(s: string)
  {
    forall i :: 0 <= i < |s| ==> IsDigit(s[i])
  }

  function DigitValue(c: char): nat
    requires IsDigit(c)
  {
    c as int - '0' as int
  }

  function DigitChar(d: nat): (c: char)
    requires d < 10
    ensures IsDigit(c) && DigitValue(c) == d
  {
    ('0' as int + d) as char
  }

  /** The value of a string of decimal digits, most significant first. */
  function DigitsValue(s: string): nat
    requires AllDigits(s)
    decreases |s|
  {
    if |s| == 0 then 0 else 10 * DigitsValue(s[..|s| - 1]) + DigitValue(s[|s| - 1])
  }

  /**
   * `str(n)` for `n >= 0`: the canonical decimal numeral of `n`. It is a
   * non-empty digit string denoting `n`, with no leading zero.
   */
  function Decimal(n: nat): (s: string)
    ensures 1 <= |s| && AllDigits(s)
    ensures DigitsValue(s) == n
    ensures 0 < n ==> s[0] != '0'
    decreases n
  {
    if n < 10 then [DigitChar(n)]
    else
      var prefix := Decimal(n / 10);
      var s := prefix + [DigitChar(n % 10)];
      assert s[..|s| - 1] == prefix;
      s
  }

  /** The integer literals this model accepts: an optional sign, then one or more ASCII digits. */
  predicate IntLiteral(t: string)
  {
    || (1 <= |t| && AllDigits(t))
    || (2 <= |t| && (t[0] == '+' || t[0] == '-') && AllDigits(t[1..]))
  }

  /**
   * `int(t)`: the integer denoted by `t`, or None where Python raises
   * ValueError. A literal is accepted exactly when it is an IntLiteral; an
   * unsigned or `+` literal denotes its digits' value, a `-` literal its
   * negation.
   */
  function ParseInt(t: string): (r: Option<int>)
    ensures r.Some? <==> IntLiteral(t)
    ensures r.Some? && AllDigits(t) ==> r.value == DigitsValue(t)
    ensures r.Some? && t[0] == '+' ==> r.value == DigitsValue(t[1..])
    ensures r.Some? && t[0] == '-' ==> r.value == 0 - DigitsValue(t[1..])
    ensures r.Some? && r.value < 0 ==> t[0] == '-'
  {
    if 1 <= |t| && AllDigits(t) then Some(DigitsValue(t))
    else if 2 <= |t| && (t[0] == '+' || t[0] == '-') && AllDigits(t[1..]) then
      Some(if t[0] == '-' then 0 - DigitsValue(t[1..]) else DigitsValue(t[1..]))
    else None
  }

  /** `int(str(n)) == n` for every `n >= 0`. */
  lemma ParseDecimal(n: nat)
    ensures ParseInt(Decimal(n)) == Some(n)
  {
  }

  /** `int("-" + str(n)) == -n`: a minus sign negates. */
  lemma ParseNegative(n: nat)
    ensures IntLiteral("-" + Decimal(n))
    ensures ParseInt("-" + Decimal(n)) == Some(-(n as int))
  {
    var text := "-" + Decimal(n);
    assert text[1..] == Decimal(n);
    assert !IsDigit(text[0]);
  }

  /** An accepted literal is made of digits and at most a leading sign, so it has no `sep` other than those. */
  lemma LiteralHasNoSeparator(t: string, sep: char)
    requires IntLiteral(t)
    requires !IsDigit(sep) && sep != '+' && sep != '-'
    ensures sep !in t
  {
    forall i | 0 <= i < |t|
      ensures t[i] != sep
    {
      if 0 < i && !AllDigits(t) {
        assert t[i] == t[1..][i - 1];
      }
    }
  }
}

=== FILE: throughput.dfy ===
/**
 * Throughput arithmetic and the client's sample bookkeeping. Clock readings
 * and speeds are exact reals. Speeds are in MB/s with 1 MB = 1024 * 1024 =
 * 1048576 bytes; the factor is written as a literal so that the verifier
 * treats products with it as linear. A rate r over `seconds` for `bytes`
 * satisfies r * seconds * 1048576.0 == bytes.
 */
module Throughput {

  /** The server's substitute for a total time that is not positive. */
  const TIME_FLOOR: real := 0.000001

  /**
   * The server's total time: the measured span when the clock advanced,
   * otherwise the floor. Either way it is positive, so the average-speed
   * division is defined.
   */
  function TotalTime(start: real, end: real): (t: real)
    ensures 0.0 < t
    ensures end > start ==> t == end - start
    ensures end <= start ==> t == TIME_FLOOR
  {
    if end > start then end - start else TIME_FLOOR
  }

  /** `bytes / seconds / (1024 * 1024)`, in MB per second; RateScales gives its defining product. */
  function Rate(bytes: int, seconds: real): (r: real)
    requires 0.0 < seconds
    ensures 0 <= bytes ==> 0.0 <= r
    ensures bytes == 0 ==> r == 0.0
  {
    bytes as real / seconds / 1048576.0
  }

  /** A rate times its time span, converted back to bytes, is the byte count. */
  lemma RateScales(bytes: int, seconds: real)
    requires 0.0 < seconds
    ensures Rate(bytes, seconds) * seconds * 1048576.0 == bytes as real
  {
    var q := bytes as real / seconds;
    assert q * seconds == bytes as real;
    assert Rate(bytes, seconds) == q / 1048576.0;
  }

  /**
   * The client's running average `bytes / (elapsed * 1024 * 1024)`, shown as 0 when
   * no positive time has elapsed, so it never divides by zero.
   */
  function AverageSpeed(bytes: nat, elapsed: real): (r: real)
    ensures elapsed <= 0.0 ==> r == 0.0
    ensures 0.0 <= r
  {
    if 0.0 < elapsed then Rate(bytes, elapsed) else 0.0
  }

  /** Over a positive elapsed time the average speed accounts for every byte. */
  lemma AverageSpeedScales(bytes: nat, elapsed: real)
    requires 0.0 < elapsed
    ensures AverageSpeed(bytes, elapsed) * elapsed * 1048576.0 == bytes as real
  {
    RateScales(bytes, elapsed);
  }

  /**
   * The client's per-transfer bookkeeping. `startTime`, `lastTime` and
   * `lastBytes` are the locals of the send loop; `times` and `speeds` are the
   * recorded samples (elapsed seconds, MB/s); `current` and `average` are
   * the speeds last put on the display.
   */
  datatype Sampler = Sampler(
    startTime: real,
    lastTime: real,
    lastBytes: nat,
    times: seq<real>,
    speeds: seq<real>,
    current: real,
    average: real)

  /** The last recorded elapsed time, or 0 before the first sample. */
  function LastOrZero(times: seq<real>): real
  {
    if |times| == 0 then 0.0 else times[|times| - 1]
  }

  /**
   * The area under the recorded speed curve: each sample's speed times the
   * time since the previous sample (or since the start).
   */
  function Area(times: seq<real>, speeds: seq<real>): real
    requires |times| == |speeds|
    decreases |times|
  {
    if |times| == 0 then 0.0
    else
      var n := |times| - 1;
      Area(times[..n], speeds[..n]) + speeds[n] * (times[n] - LastOrZero(times[..n]))
  }

  /** Each recorded time is later than the one before it. */
  predicate Increasing(ts: seq<real>)
  {
    forall i :: 0 < i < |ts| ==> ts[i - 1] < ts[i]
  }

  /**
   * What the bookkeeping keeps true once `bytesSent` bytes have gone out:
   * the two lists grow together, recorded times are positive and strictly
   * increasing, `lastTime` is the start plus the last recorded time, and the
   * byte deltas of all samples add up to `lastBytes` (the area under the
   * speed curve, in bytes, equals `lastBytes`), which never exceeds
   * `bytesSent`.
   */
  ghost predicate SamplerInv(s: Sampler, bytesSent: nat)
  {
    && |s.times| == |s.speeds|
    && s.lastBytes <= bytesSent
    && s.lastTime == s.startTime + LastOrZero(s.times)
    && (|s.times| > 0 ==> 0.0 < s.times[0])
    && Increasing(s.times)
    && Area(s.times, s.speeds) * 1048576.0 == s.lastBytes as real
  }

  /** The state at `start_time`, before any chunk: no samples, both displays 0. */
  function Begin(start: real): (s: Sampler)
    ensures SamplerInv(s, 0)
    ensures s.startTime == start && s.times == [] && s.speeds == []
    ensures s.current == 0.0 && s.average == 0.0
  {
    Sampler(start, start, 0, [], [], 0.0, 0.0)
  }

  /**
   * The bookkeeping after one chunk, with `bytesSent` the running total and
   * `now` the clock reading. A sample is recorded exactly when the interval
   * since the last sample is positive; it is appended to both lists, and
   * only then do `lastTime` and `lastBytes` advance. Otherwise nothing
   * changes.
   */
  function Observe(s: Sampler, bytesSent: nat, now: real): (r: Sampler)
    ensures r.startTime == s.startTime
    ensures |r.times| - |s.times| == |r.speeds| - |s.speeds|
    ensures |r.times| == |s.times| + 1 <==> now - s.lastTime > 0.0
    ensures now - s.lastTime <= 0.0 ==> r == s
    ensures r.times[..|s.times|] == s.times && r.speeds[..|s.speeds|] == s.speeds
    ensures now - s.lastTime > 0.0 ==> r.lastTime == now && r.lastBytes == bytesSent
    ensures now - s.lastTime > 0.0 ==>
      && r.times == s.times + [now - s.startTime]
      && r.current == r.speeds[|r.speeds| - 1]
      && r.average == AverageSpeed(bytesSent, now - s.startTime)
  {
    var elapsed := now - s.startTime;
    var interval := now - s.lastTime;
    if interval > 0.0 then
      var speed := Rate(bytesSent - s.lastBytes, interval);
      Sampler(s.startTime, now, bytesSent, s.times + [elapsed], s.speeds + [speed],
              speed, AverageSpeed(bytesSent, elapsed))
    else
      s
  }

  /** Observing a chunk keeps the bookkeeping invariant, for any clock reading. */
  lemma ObservePreservesInv(s: Sampler, before: nat, bytesSent: nat, now: real)
    requires SamplerInv(s, before)
    requires before <= bytesSent
    ensures SamplerInv(Observe(s, bytesSent, now), bytesSent)
  {
    if now - s.lastTime > 0.0 {
      SamplePreservesInv(s, before, bytesSent, now);
    } else {
      assert Observe(s, bytesSent, now) == s;
    }
  }

  /** The recording case of ObservePreservesInv. */
  lemma SamplePreservesInv(s: Sampler, before: nat, bytesSent: nat, now: real)
    requires SamplerInv(s, before)
    requires before <= bytesSent
    requires now - s.lastTime > 0.0
    ensures SamplerInv(Observe(s, bytesSent, now), bytesSent)
  {
    SampleTimes(s.times, s.startTime, s.lastTime, now);
    SampleArea(s, bytesSent, now);
  }

  /** The new sample's rectangle carries exactly the bytes sent since the last sample. */
  lemma SampleArea(s: Sampler, bytesSent: nat, now: real)
    requires |s.times| == |s.speeds|
    requires s.lastTime == s.startTime + LastOrZero(s.times)
    requires Area(s.times, s.speeds) * 1048576.0 == s.lastBytes as real
    requires s.lastBytes <= bytesSent
    requires now - s.lastTime > 0.0
    ensures var r := Observe(s, bytesSent, now);
      |r.times| == |r.speeds| && Area(r.times, r.speeds) * 1048576.0 == bytesSent as real
  {
    var interval := now - s.lastTime;
    var speed := Rate(bytesSent - s.lastBytes, interval);
    var r := Observe(s, bytesSent, now);
    assert r.times == s.times + [now - s.startTime] && r.speeds == s.speeds + [speed];
    RateScales(bytesSent - s.lastBytes, interval);
    AreaSnoc(s.times, s.speeds, now - s.startTime, speed, interval);
    var p := speed * interval;
    assert p * 1048576.0 == (bytesSent - s.lastBytes) as real;
    assert Area(r.times, r.speeds) == Area(s.times, s.speeds) + p;
  }

  /** The elapsed time of a new sample extends the recorded times, positive and increasing. */
  lemma SampleTimes(times: seq<real>, start: real, last: real, now: real)
    requires |times| > 0 ==> 0.0 < times[0]
    requires Increasing(times)
    requires last == start + LastOrZero(times)
    requires now - last > 0.0
    ensures var ts := times + [now - start];
      && 0.0 < ts[0]
      && Increasing(ts)
      && start + LastOrZero(ts) == now
  {
    var ts := times + [now - start];
    var n := |times|;
    if n > 0 {
      IncreasingAbove(times, n - 1);
    }
  }

  /** In an increasing list that starts positive, every element is positive. */
  lemma {:induction false} IncreasingAbove(ts: seq<real>, i: nat)
    requires Increasing(ts) && i < |ts| && 0.0 < ts[0]
    ensures 0.0 < ts[i]
    decreases i
  {
    if i > 0 {
      IncreasingAbove(ts, i - 1);
    }
  }

  /** Appending a sample adds its rectangle to the area. */
  lemma {:induction false} AreaSnoc(times: seq<real>, speeds: seq<real>, t: real, v: real, width: real)
    requires |times| == |speeds|
    requires width == t - LastOrZero(times)
    ensures Area(times + [t], speeds + [v]) == Area(times, speeds) + v * width
  {
    assert (times + [t])[..|times|] == times;
    assert (speeds + [v])[..|speeds|] == speeds;
  }

  /** A recorded sample always has a positive elapsed time, so the client's `elapsed > 0` average guard always holds there. */
  lemma SampledElapsedPositive(s: Sampler, bytesSent: nat, now: real)
    requires SamplerInv(s, bytesSent)
    requires now - s.lastTime > 0.0
    ensures now - s.startTime > 0.0
    ensures Observe(s, bytesSent, now).average * (now - s.startTime) * 1048576.0 == bytesSent as real
  {
    if 0 < |s.times| {
      IncreasingAbove(s.times, |s.times| - 1);
    }
    AverageSpeedScales(bytesSent, now - s.startTime);
  }
}
